=== FILE: README.md ===
# Attendance backend: a Dafny model

This project models the request handlers of a small attendance-tracking
backend, `server.js`. A teacher signs in with an email and a password.
Signing in with an unseen email signs the teacher up. The teacher keeps a
roster of students, each identified by a roll, and posts attendance. For
each posting the backend:

- splits the submitted rolls into those on the teacher's roster (present)
  and those not on it (excluded);
- derives the absent rolls;
- stores one dated record, unless no submitted roll is on the roster.

The three collections are `users`, `students` and `attendance`. Each is a
sequence in storage order.

- `find` is a filter.
- `findOne` picks the first match.
- `deleteOne` removes the first match.

Each handler is a pure function from the store and the request to the next
store and a response (`Model.Transition`). The environment supplies its inputs
as parameters:

- the generated `_id`;
- the bcrypt hash of a new password, and the hash comparison;
- the clock reading.

Modules:

- `Seqs`: generic sequence operations the handlers are built from. These are
  filter, membership retain/exclude, first match, delete-one, subsequence and
  key uniqueness.
- `Model`: users, students, attendance records, the store and the responses.
- `Credentials`: `/signin`, which is both login and signup.
- `Roster`: `/add-student`, `/check-rolls`, `/get-students` and `/delete-student`.
- `AttendanceStore`: `/get-attendance`, `/delete-attendance` and the record invariant.
- `PostingDate`: the `D-M-YYYY` posting date and a parser that reads it back.
- `Reconciler`: `/addAttendance`, which covers the present, excluded and absent rolls.
- `Server`: dispatch of one request, and runs of many requests, with the store
  invariants they keep.
- `Scenarios`: concrete requests worked through against small stores.

Two points about the stored lists, taken from the code:

- `presentRolls` and `absentRolls` are arrays, not sets. A duplicated
  submitted roll stays duplicated in `presentRolls`.
- `absentRolls` concatenates two filters (server.js:155-157).
  `Reconciler.AbsentFirstTermEmpty` proves that the first filter is always
  empty.

## Model

| member | source | states |
|---|---|---|
| Seqs.Retain | server.js:150 | a roll is kept exactly when it is on the roster; the result is never longer than the input |
| Seqs.Exclude | server.js:151 | a roll is kept exactly when it is not on the roster; the result is never longer than the input |
| Seqs.RetainExcludeCounts | server.js:150-151 | the kept rolls appear as often as they were submitted, and the dropped ones not at all |
| Seqs.RetainExcludePartition | server.js:150-151 | the matched and unmatched lists together are a permutation of the submitted rolls and share no roll |
| Seqs.RetainExcludeOrder | server.js:150-151 | both lists keep the submitted order |
| Seqs.FirstMatch | server.js:39 | returns the index of the first document satisfying the filter, or none exactly when no document does |
| Seqs.DeleteOne | server.js:129-131 | deletes at most one document, the first match; the deleted count is 0 exactly when nothing matches; other documents keep their multiplicity |
| Seqs.Filter | server.js:116 | the result is no longer than the input and every element kept satisfies the filter |
| Seqs.FilterCounts | server.js:116 | a find keeps each matching document with its multiplicity and drops the others |
| Credentials.FindUser | server.js:39 | the user found has the email asked for, and no earlier user has it; none exactly when no user has it |
| Credentials.SignIn | server.js:39-60 | a known email always reaches the password comparison: it logs in, answering the stored id of the first user with that email, exactly when the password matches, and is refused otherwise, without writing; only a sign-up can fail, and only on a used id; a signup happens exactly for an unseen email and appends one user with the new id and hash; existing users are never changed |
| Credentials.SignInPreservesValidity | server.js:54-58 | emails and ids stay unique across signups |
| Credentials.SignUpThenSignIn | server.js:41-60 | after a signup, the same password logs in as the new user id, and a password the hash does not match is refused |
| Roster.OwnStudents | server.js:116 | exactly the given user's students, with their multiplicities, in storage order |
| Roster.GetStudents | server.js:111-118 | answers exactly the user's students, each as often as it is stored, in storage order, without writing |
| Roster.EnrolledIsFound | server.js:72 | `findOne({ roll, userId })` finds a document exactly when some student of the user carries the roll |
| Roster.RosterRolls | server.js:148 | one roll per student document of the user, in storage order; so a roll is listed exactly when the user has a student with it |
| Roster.RollsOfOwnStudents | server.js:148 | the mapped rolls of the user's students list a roll exactly when some student of the user carries it |
| Roster.AddStudent | server.js:72-80 | a duplicate roll for the user is refused without writing; otherwise the student is appended and is then enrolled |
| Roster.AddStudentPreservesUnique | server.js:72-79 | rolls stay unique per user |
| Roster.AddStudentTwice | server.js:72-76 | adding the same roll twice, under any name, refuses the second request and leaves the collection as the first add left it |
| Roster.NotEnrolledRolls | server.js:94-101 | the mismatched rolls are the submitted rolls with no student, in submitted order, each as often as submitted |
| Roster.CheckRollsStep | server.js:96-101 | each submitted roll, looked up on its own, extends the report by itself exactly when no student of the user carries it |
| Roster.CheckRolls | server.js:94-103 | a roll is reported exactly when the user has no student with it; the report keeps submitted order and equals the functional definition |
| Roster.DeleteStudent | server.js:129-135 | not-found exactly when the user has no student with that roll, and then nothing changes; otherwise exactly one such entry is removed and the others are untouched |
| Roster.RemoveAtUnenrolls | server.js:129 | with unique rolls, the removed roll is no longer enrolled |
| Roster.DeleteStudentPreservesUnique | server.js:129 | rolls stay unique per user and the roster keeps its order |
| Roster.DeleteStudentTwice | server.js:129-133 | with unique rolls, a repeated delete reports not-found |
| AttendanceStore.GetAttendance | server.js:198-200 | answers exactly the user's records, each as often as it is stored, in storage order, without writing |
| AttendanceStore.DeleteAttendance | server.js:212-218 | not-found exactly when no record has both the user and the id, including another user's record with that id; otherwise exactly one is removed and the others are untouched |
| AttendanceStore.DeleteAttendancePreservesValid | server.js:212 | ids stay unique, records stay consistent, and order is kept |
| AttendanceStore.DeleteAttendanceTwice | server.js:212-216 | with unique ids, a repeated delete reports not-found |
| AttendanceStore.RemoveAtIdGone | server.js:212 | with unique ids, no remaining record has the deleted id |
| Reconciler.Reconcile | server.js:148-157 | present rolls are the submitted rolls on the roster and unmatched ones the rest, each with its submitted multiplicity; absent rolls are the roster rolls nobody submitted; every roster roll is present or absent, never both |
| Reconciler.AbsentFirstTermEmpty | server.js:155-157 | the first term of the absent derivation is always empty, so absent is the roster minus the present rolls, in roster order |
| Reconciler.AbsentCounts | server.js:155-157 | each roster roll nobody submitted is absent as often as the roster lists it, and a submitted roll never is |
| Reconciler.ReconcileKeepsOrder | server.js:150-151 | present and unmatched rolls keep the submitted order |
| Reconciler.AddAttendance | server.js:146-183 | "rolls don't exist" exactly when no submitted roll is enrolled, and nothing is written; otherwise one record with the user, the posting date and the present and absent rolls is appended, and the unmatched rolls are reported |
| Reconciler.AddAttendanceMeaning | server.js:150-178 | the stored record's present rolls are the submitted enrolled rolls and its absent rolls the enrolled rolls not submitted; excluded rolls are reported exactly when some submitted roll is not enrolled |
| Reconciler.ExcludedAreMismatched | server.js:151 | the excluded rolls are what `/check-rolls` reports for the same input |
| Reconciler.AddAttendancePreservesValid | server.js:165-170 | a stored record never lists a roll as both present and absent, and record ids stay unique |
| PostingDate.Decimal | server.js:162 | a number prints as non-empty digits without a leading zero and without a '-' |
| PostingDate.DecimalRoundTrip | server.js:162 | the printed digits denote the number printed |
| PostingDate.Format | server.js:161-162 | the posting date splits on '-' into exactly three fields: the printed day of the month, 1-based month and full year |
| PostingDate.Parse | server.js:162 | any date the parser accepts prints back to the same string |
| PostingDate.FormatParses | server.js:161-162 | a posting date parses back to the day, 0-based month and year it was made from |
| Server.SignInStep | server.js:34-66 | `/signin` changes only the users collection, writes nothing when it refuses or fails, and only appends users |
| Server.StudentStep | server.js:69-141 | `/add-student` and `/delete-student` change only the students collection and write nothing when they refuse |
| Server.AttendanceStep | server.js:144-224 | `/addAttendance` and `/delete-attendance` change only the attendance collection and write nothing when they refuse or fail |
| Server.Handle | server.js:34-224 | each handler writes only its own collection; reads and refused requests write nothing; users are never removed or changed |
| Server.HandlePreservesValid | server.js:34-224 | one request keeps emails, user ids, rolls per user and record ids unique, and every record consistent |
| Server.Run | server.js:34-224 | one response per request, and the users only accumulate |
| Server.RunPreservesValid | server.js:34-224 | any sequence of requests keeps the store invariants |
| Scenarios.AllSubmittedPresent | server.js:150-177 | roster 1, 2, 3 with rolls 1, 2 stores present 1, 2 and absent 3, and excludes nothing |
| Scenarios.OneExcluded | server.js:150-174 | roster 1, 2, 3 with rolls 1, 9 stores present 1 and absent 2, 3, and reports 9 as excluded |
| Scenarios.NoneOnRoster | server.js:154-182 | roster 1, 2 with rolls 9, 8 stores nothing and answers "rolls don't exist" |
| Scenarios.CheckRollsExample | server.js:94-103 | rolls A, B, C with only A registered report B, C |

## Left out

- HTTP plumbing is not modelled: Express routing, body parsing, CORS, the
  port, logging, and the `GET /` greeting (server.js:1-32, 227-229).
- Status codes and message text are not modelled. Each response is an
  `Outcome` variant. The excluded rolls are carried as a list rather than
  joined into the message.
- The MongoDB driver is not modelled. Collections are sequences, a filter on
  equal fields is a predicate, and storage order is sequence order.
- The `_id` generated for a student is not modelled, because no handler's
  logic depends on it. `/get-students` returns it, and the model's `Students`
  response omits it.
- bcrypt is not modelled. The hash of a new password is a request parameter,
  and `compare` is the function parameter `matches`.
- Id generation is not modelled. `new ObjectId()` and the id of an inserted
  attendance record are request parameters, and ids are natural numbers.
- A malformed `attendanceId` makes `new ObjectId(...)` throw, which answers
  500. That path is not modelled, because ids here are already numbers.
- The clock is not modelled. `new Date()` is a `CalendarDay` parameter, with a
  non-negative year and fields printed as plain decimals.
- Storage failures other than a duplicate `_id` on insert are not modelled.
- Malformed bodies are not modelled. In `/addAttendance`, a `rolls` that is
  not an array makes `rolls.filter` throw, which answers 500 (server.js:150).
  In `/check-rolls`, a string `rolls` is walked character by character
  (server.js:96), and the characters no student carries come back with 200.
- Concurrent requests are not modelled. Each request runs to completion
  before the next, so the check-then-insert race in `/add-student` and
  `/signin` cannot occur in the model.
- Rolls are integers or strings, compared by value. Fractional JSON numbers
  and other JSON values are not modelled. `JSON.parse` rounds integers beyond
  2^53 to the nearest double, so two distinct `Num` rolls can be one
  JavaScript number, which `includes` and the store's filter treat as equal;
  the model keeps them distinct.
- Roster.CheckRolls: the multiplicity of each reported roll is stated by
  `Roster.NotEnrolledRolls` about the same value, not by the method's own
  contract.

=== FILE: attendance.dfy ===
/**
 The attendance collection: `/get-attendance` and `/delete-attendance`, and the
 invariant every stored record keeps.
 */
module AttendanceStore {
  import opened Seqs
  import opened Model

  function RecordKey(r: AttendanceRecord): ObjectId
  {
    r.id
  }

  /** No roll of a record is both present and absent. */
  ghost predicate Consistent(r: AttendanceRecord)
  {
    forall roll :: roll in r.presentRolls ==> roll !in r.absentRolls
  }

  /** Record ids are unique (the store's `_id` index) and every record is consistent. */
  ghost predicate RecordsValid(records: seq<AttendanceRecord>)
  {
    && KeysUnique(records, RecordKey)
    && forall i :: 0 <= i < |records| ==> Consistent(records[i])
  }

  /** `find({ userId }).toArray()` on the attendance collection. */
  function GetAttendance(records: seq<AttendanceRecord>, userId: UserId): (t: Transition<seq<AttendanceRecord>>)
    ensures t.next == records
    ensures t.outcome.Attendance?
    ensures forall r :: r in t.outcome.records <==> r in records && r.userId == userId
    // Every stored record of the user, as often as it is stored.
    ensures forall r :: multiset(t.outcome.records)[r] == if r.userId == userId then multiset(records)[r] else 0
    ensures IsSubsequence(t.outcome.records, records)
  {
    var own := Filter(records, (r: AttendanceRecord) => r.userId == userId);
    FilterCounts(records, (r: AttendanceRecord) => r.userId == userId);
    assert forall r :: r in own <==> multiset(own)[r] > 0;
    FilterIsSubsequence(records, (r: AttendanceRecord) => r.userId == userId);
    Transition(records, Attendance(own))
  }

  /** `r` is the document the filter `{ userId, _id }` selects. */
  predicate IsTarget(r: AttendanceRecord, userId: UserId, id: ObjectId)
  {
    r.userId == userId && r.id == id
  }

  /**
   `/delete-attendance`: `deleteOne({ userId, _id })`. A record of another user
   with the same id and a missing id are both reported as not-found.
   */
  function DeleteAttendance(records: seq<AttendanceRecord>, userId: UserId, id: ObjectId): (t: Transition<seq<AttendanceRecord>>)
    ensures t.outcome == AttendanceDeleted || t.outcome == AttendanceNotFound
    ensures t.outcome == AttendanceNotFound <==> forall i :: 0 <= i < |records| ==> !IsTarget(records[i], userId, id)
    ensures t.outcome == AttendanceNotFound ==> t.next == records
    ensures t.outcome == AttendanceDeleted ==>
      exists k :: 0 <= k < |records| && IsTarget(records[k], userId, id)
        && t.next == records[..k] + records[k + 1..]
    // Records other than the one named are untouched.
    ensures forall r :: !IsTarget(r, userId, id) ==> multiset(t.next)[r] == multiset(records)[r]
  {
    var d := DeleteOne(records, (r: AttendanceRecord) => IsTarget(r, userId, id));
    if d.deletedCount == 0 then Transition(records, AttendanceNotFound)
    else Transition(d.rest, AttendanceDeleted)
  }

  lemma DeleteAttendancePreservesValid(records: seq<AttendanceRecord>, userId: UserId, id: ObjectId)
    requires RecordsValid(records)
    ensures RecordsValid(DeleteAttendance(records, userId, id).next)
    ensures IsSubsequence(DeleteAttendance(records, userId, id).next, records)
  {
    var t := DeleteAttendance(records, userId, id);
    if t.outcome == AttendanceNotFound {
      SubsequenceRefl(records);
    } else {
      var k :| 0 <= k < |records| && IsTarget(records[k], userId, id)
        && t.next == records[..k] + records[k + 1..];
      RemoveAtIsSubsequence(records, k);
      RemoveAtKeysUnique(records, k, RecordKey);
      var n := t.next;
      forall i | 0 <= i < |n|
        ensures Consistent(n[i])
      {
        assert n[i] == records[if i < k then i else i + 1];
      }
    }
  }

  /** With unique ids, the record is gone after a successful delete: a repeat reports not-found. */
  lemma DeleteAttendanceTwice(records: seq<AttendanceRecord>, userId: UserId, id: ObjectId)
    requires KeysUnique(records, RecordKey)
    ensures var first := DeleteAttendance(records, userId, id);
      DeleteAttendance(first.next, userId, id) == Transition(first.next, AttendanceNotFound)
  {
    var first := DeleteAttendance(records, userId, id);
    if first.outcome == AttendanceDeleted {
      var k :| 0 <= k < |records| && IsTarget(records[k], userId, id)
        && first.next == records[..k] + records[k + 1..];
      RemoveAtIdGone(records, k);
      var n := first.next;
      forall i | 0 <= i < |n|
        ensures !IsTarget(n[i], userId, id)
      {
        assert n[i] in n;
      }
    }
  }

  lemma RemoveAtIdGone(records: seq<AttendanceRecord>, k: nat)
    requires k < |records| && KeysUnique(records, RecordKey)
    ensures forall r :: r in records[..k] + records[k + 1..] ==> r.id != records[k].id
  {
    RemoveAtKeysUnique(records, k, RecordKey);
  }
}

=== FILE: credentials.dfy ===
/**
 The credential store behind `/signin`: one endpoint that logs an existing
 email in and silently signs an unseen email up.

 Password hashing is foreign code. `hashed` is what the salted hash produced
 for this call's password, and `matches(password, hash)` stands for the
 constant-time comparison; neither is interpreted here.
 */
module Credentials {
  import opened Seqs
  import opened Model

  /** `findOne({ email })`: the first user stored under `email`. */
  function FindUser(users: seq<User>, email: string): (r: Option<nat>)
    ensures r.None? <==> forall i :: 0 <= i < |users| ==> users[i].email != email
    ensures r.Some? ==> r.value < |users| && users[r.value].email == email
    ensures r.Some? ==> forall j :: 0 <= j < r.value ==> users[j].email != email
  {
    FirstMatch(users, (u: User) => u.email == email)
  }

  function EmailKey(u: User): string
  {
    u.email
  }

  function IdKey(u: User): ObjectId
  {
    u.id
  }

  /** No two users share an email; this is what makes sign-in unambiguous. */
  ghost predicate EmailsUnique(users: seq<User>)
  {
    KeysUnique(users, EmailKey)
  }

  /** No two users share an `_id`; the store enforces this on insert. */
  ghost predicate IdsUnique(users: seq<User>)
  {
    KeysUnique(users, IdKey)
  }

  ghost predicate UsersValid(users: seq<User>)
  {
    EmailsUnique(users) && IdsUnique(users)
  }

  /**
   `/signin`. A known email with a matching password logs in, a known email with
   another password is refused, and an unknown email is enrolled with a new id.
   */
  function SignIn(users: seq<User>, email: string, password: string, freshId: ObjectId,
                  hashed: string, matches: (string, string) -> bool): (t: Transition<seq<User>>)
    ensures t.outcome.LoginSuccessful? || t.outcome.PasswordMismatch?
         || t.outcome.SignupSuccessful? || t.outcome.InternalError?
    // Users are never updated or deleted: the old collection is a prefix of the new one.
    ensures |users| <= |t.next| <= |users| + 1 && t.next[..|users|] == users
    ensures t.outcome.LoginSuccessful? ==>
      t.next == users &&
      exists i :: 0 <= i < |users| && users[i].email == email && users[i].id == t.outcome.userId
                  && matches(password, users[i].passwordHash)
    ensures t.outcome.PasswordMismatch? ==>
      t.next == users &&
      exists i :: 0 <= i < |users| && users[i].email == email && !matches(password, users[i].passwordHash)
    // Sign-up happens exactly when the email is unseen and the new id is free.
    ensures t.outcome.SignupSuccessful? <==>
      (forall i :: 0 <= i < |users| ==> users[i].email != email) && freshId !in UserIds(users)
    ensures t.outcome.SignupSuccessful? ==>
      t.outcome.userId == freshId && t.next == users + [User(freshId, email, hashed)]
    ensures t.outcome.InternalError? ==> t.next == users
    // A known email always reaches the password comparison; only a sign-up can fail.
    ensures t.outcome.InternalError? ==>
      (forall i :: 0 <= i < |users| ==> users[i].email != email) && freshId in UserIds(users)
    ensures FindUser(users, email).Some? ==>
      && (t.outcome.LoginSuccessful? <==> matches(password, users[FindUser(users, email).value].passwordHash))
      && (t.outcome.LoginSuccessful? ==> t.outcome.userId == users[FindUser(users, email).value].id)
  {
    match FindUser(users, email)
    case Some(i) =>
      if matches(password, users[i].passwordHash) then Transition(users, LoginSuccessful(users[i].id))
      else Transition(users, PasswordMismatch)
    case None =>
      // `insertOne` fails on a duplicate `_id`; the handler answers 500.
      if freshId in UserIds(users) then Transition(users, InternalError)
      else Transition(users + [User(freshId, email, hashed)], SignupSuccessful(freshId))
  }

  /** Signing in never breaks email or id uniqueness. */
  lemma SignInPreservesValidity(users: seq<User>, email: string, password: string, freshId: ObjectId,
                                hashed: string, matches: (string, string) -> bool)
    requires UsersValid(users)
    ensures UsersValid(SignIn(users, email, password, freshId, hashed, matches).next)
  {
    var t := SignIn(users, email, password, freshId, hashed, matches);
    if t.outcome.SignupSuccessful? {
      var n := t.next;
      forall i, j | 0 <= i < j < |n|
        ensures n[i].email != n[j].email && n[i].id != n[j].id
      {
        if j == |users| {
          assert n[i] == users[i];
          assert users[i].id in UserIds(users);
        }
      }
    }
  }

  /**
   Signing up and then signing in again with the same password logs in as the
   new user, provided the hash comparison accepts the password it hashed; the
   same email with a rejected password is refused. Neither changes the users.
   */
  lemma SignUpThenSignIn(users: seq<User>, email: string, password: string, other: string,
                         freshId: ObjectId, hashed: string, laterId: ObjectId, laterHash: string,
                         matches: (string, string) -> bool)
    requires UsersValid(users)
    requires forall i :: 0 <= i < |users| ==> users[i].email != email
    requires freshId !in UserIds(users)
    requires matches(password, hashed) && !matches(other, hashed)
    ensures SignIn(users, email, password, freshId, hashed, matches).outcome == SignupSuccessful(freshId)
    ensures var after := SignIn(users, email, password, freshId, hashed, matches).next;
      SignIn(after, email, password, laterId, laterHash, matches) == Transition(after, LoginSuccessful(freshId))
      && SignIn(after, email, other, laterId, laterHash, matches) == Transition(after, PasswordMismatch)
  {
    var after := SignIn(users, email, password, freshId, hashed, matches).next;
    assert after == users + [User(freshId, email, hashed)];
    var k := FindUser(after, email);
    assert after[|users|].email == email;
    assert k == Some(|users|);
  }
}

=== FILE: date.dfy ===
/**
 The date stamped on an attendance record: day of month, 1-based month and
 full year, written in decimal without padding and joined by '-'.
 The clock itself is not modelled; its reading is a parameter.
 */
module PostingDate {
  import opened Seqs

  /** A clock reading: `getDate()`, `getMonth()` (0-based) and `getFullYear()`. */
  datatype CalendarDay = CalendarDay(date: nat, monthIndex: nat, fullYear: nat)

  predicate IsDigit(c: char)
  {
    '0' <= c <= '9'
  }

  predicate AllDigits(s: string)
  {
    forall i :: 0 <= i < |s| ==> IsDigit(s[i])
  }

  /** Non-empty decimal digits without a leading zero: how a number prints. */
  predicate IsCanonical(s: string)
  {
    |s| > 0 && AllDigits(s) && (|s| > 1 ==> s[0] != '0')
  }

  function DigitChar(d: nat): (c: char)
    requires d < 10
    ensures IsDigit(c) && c as int - '0' as int == d
  {
    (d + '0' as int) as char
  }

  /** How a template literal prints a non-negative integer. */
  function Decimal(n: nat): (s: string)
    ensures IsCanonical(s)
    ensures '-' !in s
    decreases n
  {
    if n < 10 then [DigitChar(n)] else Decimal(n / 10) + [DigitChar(n % 10)]
  }

  /** The number a string of decimal digits denotes. */
  function DecimalValue(s: string): nat
    requires AllDigits(s)
    decreases |s|
  {
    if |s| == 0 then 0
    else 10 * DecimalValue(s[..|s| - 1]) + (s[|s| - 1] as int - '0' as int)
  }

  lemma {:induction false} DecimalRoundTrip(n: nat)
    ensures DecimalValue(Decimal(n)) == n
    decreases n
  {
    if n >= 10 {
      DecimalRoundTrip(n / 10);
      var s := Decimal(n);
      assert s[..|s| - 1] == Decimal(n / 10);
    }
  }

  /** `${getDate()}-${getMonth() + 1}-${getFullYear()}`. */
  function Format(day: CalendarDay): (s: string)
    // Exactly three fields, the printed day, 1-based month and year.
    ensures Split(s, '-') == [Decimal(day.date), Decimal(day.monthIndex + 1), Decimal(day.fullYear)]
  {
    SplitThree(Decimal(day.date), Decimal(day.monthIndex + 1), Decimal(day.fullYear));
    Decimal(day.date) + "-" + Decimal(day.monthIndex + 1) + "-" + Decimal(day.fullYear)
  }

  /** `s.split(sep)` for a one-character separator. */
  function Split(s: string, sep: char): (parts: seq<string>)
    ensures |parts| > 0
    ensures forall i :: 0 <= i < |parts| ==> sep !in parts[i]
    decreases |s|
  {
    if |s| == 0 then [""]
    else
      var rest := Split(s[1..], sep);
      if s[0] == sep then [""] + rest
      else [[s[0]] + rest[0]] + rest[1..]
  }

  lemma {:induction false} SplitWithoutSeparator(a: string, sep: char)
    requires sep !in a
    ensures Split(a, sep) == [a]
  {
    if |a| > 0 {
      SplitWithoutSeparator(a[1..], sep);
      assert [a[0]] + a[1..] == a;
    }
  }

  lemma {:induction false} SplitAtSeparator(a: string, sep: char, t: string)
    requires sep !in a
    ensures Split(a + [sep] + t, sep) == [a] + Split(t, sep)
  {
    var s := a + [sep] + t;
    if |a| == 0 {
      assert s[1..] == t;
    } else {
      assert s[1..] == a[1..] + [sep] + t;
      SplitAtSeparator(a[1..], sep, t);
      assert [a[0]] + a[1..] == a;
    }
  }

  /** Reads a posted date back; `None` for anything `Format` cannot produce. */
  function Parse(s: string): (r: Option<CalendarDay>)
    ensures r.Some? ==> Format(r.value) == s
  {
    var parts := Split(s, '-');
    if |parts| == 3 && (forall i :: 0 <= i < 3 ==> IsCanonical(parts[i])) && DecimalValue(parts[1]) >= 1
    then
      var day := CalendarDay(DecimalValue(parts[0]), DecimalValue(parts[1]) - 1, DecimalValue(parts[2]));
      assert Format(day) == s by {
        DecimalCanonical(parts[0]);
        DecimalCanonical(parts[1]);
        DecimalCanonical(parts[2]);
        SplitJoinThree(s, parts);
      }
      Some(day)
    else None
  }

  /** A digit string without a leading zero is how its value prints. */
  lemma {:induction false} DecimalCanonical(s: string)
    requires IsCanonical(s)
    ensures Decimal(DecimalValue(s)) == s
    decreases |s|
  {
    var init, last := s[..|s| - 1], s[|s| - 1];
    var d := last as int - '0' as int;
    if |s| == 1 {
      assert DecimalValue(s) == 10 * DecimalValue(init) + d;
      assert [DigitChar(d)] == s;
    } else {
      assert init[0] == s[0];
      DecimalCanonical(init);
      DecimalNonZero(init);
      var n := DecimalValue(s);
      assert n / 10 == DecimalValue(init) && n % 10 == d;
      assert s == init + [last];
    }
  }

  lemma {:induction false} DecimalNonZero(s: string)
    requires |s| > 0 && AllDigits(s) && s[0] != '0'
    ensures DecimalValue(s) > 0
    decreases |s|
  {
    if |s| > 1 {
      assert s[..|s| - 1][0] == s[0];
      DecimalNonZero(s[..|s| - 1]);
    }
  }

  /** Three parts without separators, split out of `s`, join back into `s`. */
  lemma SplitJoinThree(s: string, parts: seq<string>)
    requires parts == Split(s, '-') && |parts| == 3
    ensures s == parts[0] + "-" + parts[1] + "-" + parts[2]
  {
    SplitJoin(s, '-');
    assert parts[1..][1..] == [parts[2]];
    assert Join(parts[1..], '-') == parts[1] + "-" + parts[2];
  }

  /** Joining the pieces of a split with the separator gives back the string. */
  lemma {:induction false} SplitJoin(s: string, sep: char)
    ensures Join(Split(s, sep), sep) == s
    decreases |s|
  {
    if |s| > 0 {
      SplitJoin(s[1..], sep);
      var rest := Split(s[1..], sep);
      if s[0] != sep {
        var parts := [[s[0]] + rest[0]] + rest[1..];
        assert parts[1..] == rest[1..];
        JoinCons(rest, sep);
        JoinCons(parts, sep);
      } else {
        assert ([""] + rest)[1..] == rest;
      }
    }
  }

  /** `parts.join(sep)`. */
  function Join(parts: seq<string>, sep: char): string
    decreases |parts|
  {
    if |parts| == 0 then ""
    else if |parts| == 1 then parts[0]
    else parts[0] + [sep] + Join(parts[1..], sep)
  }

  lemma JoinCons(parts: seq<string>, sep: char)
    requires |parts| > 0
    ensures Join(parts, sep) == parts[0] + (if |parts| == 1 then "" else [sep] + Join(parts[1..], sep))
  {
  }

  /** Three pieces without the separator, joined by it, split back into the pieces. */
  lemma SplitThree(a: string, b: string, c: string)
    requires '-' !in a && '-' !in b && '-' !in c
    ensures Split(a + "-" + b + "-" + c, '-') == [a, b, c]
  {
    SplitWithoutSeparator(c, '-');
    SplitAtSeparator(b, '-', c);
    assert b + "-" + c == b + ['-'] + c;
    SplitAtSeparator(a, '-', b + "-" + c);
    assert a + "-" + b + "-" + c == a + ['-'] + (b + "-" + c);
  }

  /** Three printed numbers joined by '-' parse back to the numbers, the middle one less one. */
  lemma ParsePrinted(d: nat, m: nat, y: nat)
    ensures Parse(Decimal(d) + "-" + Decimal(m + 1) + "-" + Decimal(y)) == Some(CalendarDay(d, m, y))
  {
    var s := Decimal(d) + "-" + Decimal(m + 1) + "-" + Decimal(y);
    var parts := Split(s, '-');
    assert parts == [Decimal(d), Decimal(m + 1), Decimal(y)] by {
      SplitThree(Decimal(d), Decimal(m + 1), Decimal(y));
    }
    assert DecimalValue(parts[0]) == d by {
      DecimalRoundTrip(d);
    }
    assert DecimalValue(parts[1]) == m + 1 by {
      DecimalRoundTrip(m + 1);
    }
    assert DecimalValue(parts[2]) == y by {
      DecimalRoundTrip(y);
    }
  }

  /** The posted date reads back as the clock reading it was made from. */
  lemma FormatParses(day: CalendarDay)
    ensures Parse(Format(day)) == Some(day)
  {
    ParsePrinted(day.date, day.monthIndex, day.fullYear);
  }
}

=== FILE: model.dfy ===
/**
 The records kept by the attendance backend, its three collections, and the
 outcome each request handler reports.
 */
module Model {

  /** The caller-supplied scoping key. It is never checked against a user. */
  type UserId = string

  /** A generated document id (the `_id` of a user or an attendance record). */
  type ObjectId = nat

  /**
   A roll as it arrives in a JSON body. Both `Array.prototype.includes` and the
   store's equality filter tell the number 1 from the string "1", and so does
   this datatype's equality.
   */
  datatype Roll = Num(n: int) | Text(s: string)

  datatype User = User(id: ObjectId, email: string, passwordHash: string)

  datatype Student = Student(userId: UserId, roll: Roll, name: string)

  datatype AttendanceRecord = AttendanceRecord(
    id: ObjectId,
    userId: UserId,
    date: string,
    presentRolls: seq<Roll>,
    absentRolls: seq<Roll>)

  /** The three collections, each in storage order. */
  datatype Store = Store(
    users: seq<User>,
    students: seq<Student>,
    attendance: seq<AttendanceRecord>)

  /** The response of a handler, without HTTP status codes and message text. */
  datatype Outcome =
    | LoginSuccessful(userId: ObjectId)
    | SignupSuccessful(userId: ObjectId)
    | PasswordMismatch
    | StudentAdded
    | DuplicateRoll
    | MismatchedRolls(rolls: seq<Roll>)
    | Students(students: seq<Student>)
    | StudentDeleted
    | StudentNotFound
    /** `excluded` is empty exactly when the plain success message is sent. */
    | AttendanceAdded(excluded: seq<Roll>)
    | RollsDontExist
    | Attendance(records: seq<AttendanceRecord>)
    | AttendanceDeleted
    | AttendanceNotFound
    /** The store rejected a write (a generated `_id` already in use). */
    | InternalError

  /** A handler's effect on one collection: the collection afterwards and the response. */
  datatype Transition<S> = Transition(next: S, outcome: Outcome)

  /** Ids of the documents of a collection, as a set. */
  function RecordIds(records: seq<AttendanceRecord>): set<ObjectId>
  {
    set i | 0 <= i < |records| :: records[i].id
  }

  function UserIds(users: seq<User>): set<ObjectId>
  {
    set i | 0 <= i < |users| :: users[i].id
  }
}

=== FILE: reconcile.dfy ===
/**
 The attendance reconciler behind `/addAttendance`: split the submitted rolls
 into those on the user's roster (present) and the rest (unmatched), derive the
 absent rolls, and store one dated record unless nothing matched.
 */
module Reconciler {
  import opened Seqs
  import opened Model
  import opened Roster
  import opened AttendanceStore
  import PostingDate

  /**
   The three lists the handler computes: `updatedRolls` (here `present`),
   `unmatchedRolls` and `absentRolls`.
   */
  datatype Reconciliation = Reconciliation(present: seq<Roll>, unmatched: seq<Roll>, absent: seq<Roll>)

  /**
   The reconciliation rule, absent rolls included in their literal two-term
   form: submitted-and-matched rolls missing from the roster, followed by roster
   rolls missing from the matched ones.
   */
  function Reconcile(roster: seq<Roll>, rolls: seq<Roll>): (c: Reconciliation)
    // Present: the submitted rolls on the roster, each as often as submitted.
    ensures forall x :: multiset(c.present)[x] == if x in roster then multiset(rolls)[x] else 0
    // Unmatched: the submitted rolls not on the roster, each as often as submitted.
    ensures forall x :: multiset(c.unmatched)[x] == if x in roster then 0 else multiset(rolls)[x]
    ensures |c.present| + |c.unmatched| == |rolls|
    // Absent: the roster rolls nobody submitted.
    ensures forall x :: x in c.absent <==> x in roster && x !in rolls
    // Every roster roll is present or absent, never both.
    ensures forall x :: x in roster ==> (x in c.present <==> x !in c.absent)
  {
    var present := Retain(rolls, roster);
    var unmatched := Exclude(rolls, roster);
    var absent := Exclude(present, roster) + Exclude(roster, present);
    RetainExcludePartition(rolls, roster);
    RetainExcludeCounts(rolls, roster);
    Reconciliation(present, unmatched, absent)
  }

  /**
   The first term of the absent derivation never contributes: every present roll
   is on the roster, so absent rolls are exactly the roster minus the present
   rolls, in roster order.
   */
  lemma AbsentFirstTermEmpty(roster: seq<Roll>, rolls: seq<Roll>)
    ensures Exclude(Retain(rolls, roster), roster) == []
    ensures Reconcile(roster, rolls).absent == Exclude(roster, Reconcile(roster, rolls).present)
    ensures IsSubsequence(Reconcile(roster, rolls).absent, roster)
  {
    var present := Retain(rolls, roster);
    var dead := Exclude(present, roster);
    assert |dead| == 0 by {
      RetainExcludeCounts(present, roster);
      assert multiset(dead) == multiset{};
    }
    var c := Reconcile(roster, rolls);
    assert c.present == present;
    assert c.absent == [] + Exclude(roster, present);
    RetainExcludeOrder(roster, present);
  }

  /** Each roster roll nobody submitted is absent as often as the roster lists it. */
  lemma AbsentCounts(roster: seq<Roll>, rolls: seq<Roll>)
    ensures forall x :: multiset(Reconcile(roster, rolls).absent)[x] == if x in rolls then 0 else multiset(roster)[x]
  {
    var c := Reconcile(roster, rolls);
    AbsentFirstTermEmpty(roster, rolls);
    assert c.absent == Exclude(roster, c.present);
    RetainExcludeCounts(roster, c.present);
    forall x
      ensures multiset(c.absent)[x] == if x in rolls then 0 else multiset(roster)[x]
    {
      if x in rolls && x !in roster {
        assert multiset(roster)[x] == 0;
      }
    }
  }

  /** Present and unmatched rolls each keep the input order. */
  lemma ReconcileKeepsOrder(roster: seq<Roll>, rolls: seq<Roll>)
    ensures IsSubsequence(Reconcile(roster, rolls).present, rolls)
    ensures IsSubsequence(Reconcile(roster, rolls).unmatched, rolls)
  {
    RetainExcludeOrder(rolls, roster);
  }

  /**
   `/addAttendance`. Reconciles against the user's roster; when no submitted roll
   is on it nothing is stored, otherwise exactly one record is appended carrying
   the user, the posting date, the present and the absent rolls.
   */
  function AddAttendance(records: seq<AttendanceRecord>, students: seq<Student>, userId: UserId,
                         rolls: seq<Roll>, freshId: ObjectId, today: PostingDate.CalendarDay): (t: Transition<seq<AttendanceRecord>>)
    ensures t.outcome.AttendanceAdded? || t.outcome == RollsDontExist || t.outcome == InternalError
    ensures t.outcome == RollsDontExist <==> forall roll :: roll in rolls ==> !Enrolled(students, userId, roll)
    ensures !t.outcome.AttendanceAdded? ==> t.next == records
    // The write fails only on an `_id` already in use.
    ensures t.outcome == InternalError ==> freshId in RecordIds(records)
    ensures t.outcome.AttendanceAdded? ==>
      var c := Reconcile(RosterRolls(students, userId), rolls);
      && freshId !in RecordIds(records)
      && t.next == records + [AttendanceRecord(freshId, userId, PostingDate.Format(today), c.present, c.absent)]
      && t.outcome.excluded == c.unmatched
  {
    var c := Reconcile(RosterRolls(students, userId), rolls);
    if |c.present| > 0 then
      if freshId in RecordIds(records) then Transition(records, InternalError)
      else
        var record := AttendanceRecord(freshId, userId, PostingDate.Format(today), c.present, c.absent);
        Transition(records + [record], AttendanceAdded(c.unmatched))
    else
      assert forall roll :: roll in rolls ==> multiset(rolls)[roll] > 0;
      Transition(records, RollsDontExist)
  }

  /**
   What the stored record and the success message say in terms of the students
   collection: present rolls are the submitted enrolled ones, absent rolls the
   enrolled ones not submitted, and rolls are listed as excluded exactly when
   some submitted roll is not enrolled.
   */
  lemma AddAttendanceMeaning(records: seq<AttendanceRecord>, students: seq<Student>, userId: UserId,
                             rolls: seq<Roll>, freshId: ObjectId, today: PostingDate.CalendarDay)
    requires freshId !in RecordIds(records)
    requires exists roll :: roll in rolls && Enrolled(students, userId, roll)
    ensures var t := AddAttendance(records, students, userId, rolls, freshId, today);
      t.outcome.AttendanceAdded? && |t.next| == |records| + 1
    ensures var t := AddAttendance(records, students, userId, rolls, freshId, today);
      var r := t.next[|records|];
      && r.userId == userId
      && (forall x :: x in r.presentRolls <==> x in rolls && Enrolled(students, userId, x))
      && (forall x :: x in r.absentRolls <==> Enrolled(students, userId, x) && x !in rolls)
      && (|t.outcome.excluded| > 0 <==> exists x :: x in rolls && !Enrolled(students, userId, x))
  {
    var roster := RosterRolls(students, userId);
    var c := Reconcile(roster, rolls);
    forall x
      ensures x in c.present <==> x in rolls && Enrolled(students, userId, x)
      ensures x in c.unmatched <==> x in rolls && !Enrolled(students, userId, x)
    {
      assert x in roster <==> Enrolled(students, userId, x);
      assert x in rolls <==> multiset(rolls)[x] > 0;
    }
    if |c.unmatched| > 0 {
      assert c.unmatched[0] in c.unmatched;
    }
  }

  /** Excluded rolls are what `/check-rolls` reports for the same input. */
  lemma ExcludedAreMismatched(records: seq<AttendanceRecord>, students: seq<Student>, userId: UserId,
                              rolls: seq<Roll>, freshId: ObjectId, today: PostingDate.CalendarDay)
    requires freshId !in RecordIds(records)
    requires exists roll :: roll in rolls && Enrolled(students, userId, roll)
    ensures AddAttendance(records, students, userId, rolls, freshId, today)
         .outcome == AttendanceAdded(Exclude(rolls, RosterRolls(students, userId)))
  {
  }

  /** A stored record never lists a roll as both present and absent; ids stay unique. */
  lemma AddAttendancePreservesValid(records: seq<AttendanceRecord>, students: seq<Student>, userId: UserId,
                                    rolls: seq<Roll>, freshId: ObjectId, today: PostingDate.CalendarDay)
    requires RecordsValid(records)
    ensures RecordsValid(AddAttendance(records, students, userId, rolls, freshId, today).next)
  {
    var t := AddAttendance(records, students, userId, rolls, freshId, today);
    if t.outcome.AttendanceAdded? {
      var r := t.next[|records|];
      assert t.next == records + [r];
      forall i | 0 <= i < |records|
        ensures RecordKey(records[i]) != RecordKey(r)
      {
        assert records[i].id in RecordIds(records);
      }
      AppendKeysUnique(records, r, RecordKey);
      var c := Reconcile(RosterRolls(students, userId), rolls);
      forall x | x in r.presentRolls
        ensures x !in r.absentRolls
      {
        assert multiset(c.present)[x] > 0;
      }
      forall i | 0 <= i < |t.next|
        ensures Consistent(t.next[i])
      {
        if i < |records| {
          assert t.next[i] == records[i];
        }
      }
    }
  }
}

=== FILE: roster.dfy ===
/**
 The per-user roster of students: `/add-student` (check, then insert),
 `/check-rolls`, `/get-students` and `/delete-student`.
 */
module Roster {
  import opened Seqs
  import opened Model

  /** `s` is the document the filter `{ userId, roll }` selects. */
  predicate IsEntry(s: Student, userId: UserId, roll: Roll)
  {
    s.userId == userId && s.roll == roll
  }

  /** Some student of `userId` carries `roll`. */
  predicate Enrolled(students: seq<Student>, userId: UserId, roll: Roll)
  {
    exists i :: 0 <= i < |students| && IsEntry(students[i], userId, roll)
  }

  /** `findOne({ roll, userId })` finds a document exactly when the roll is enrolled. */
  lemma EnrolledIsFound(students: seq<Student>, userId: UserId, roll: Roll)
    ensures Enrolled(students, userId, roll) <==> FirstMatch(students, (s: Student) => IsEntry(s, userId, roll)).Some?
  {
  }

  /** The pair a student is looked up by. */
  function StudentKey(s: Student): (UserId, Roll)
  {
    (s.userId, s.roll)
  }

  /** No two students of one user share a roll. */
  ghost predicate RosterUnique(students: seq<Student>)
  {
    KeysUnique(students, StudentKey)
  }

  /** `find({ userId }).toArray()`: the user's students, in storage order. */
  function OwnStudents(students: seq<Student>, userId: UserId): (r: seq<Student>)
    ensures forall i :: 0 <= i < |r| ==> r[i].userId == userId
    ensures forall s :: multiset(r)[s] == if s.userId == userId then multiset(students)[s] else 0
    ensures IsSubsequence(r, students)
  {
    FilterCounts(students, (s: Student) => s.userId == userId);
    FilterIsSubsequence(students, (s: Student) => s.userId == userId);
    Filter(students, (s: Student) => s.userId == userId)
  }

  /** `/get-students`: the user's students; the collection is not touched. */
  function GetStudents(students: seq<Student>, userId: UserId): (t: Transition<seq<Student>>)
    ensures t.next == students
    ensures t.outcome.Students?
    ensures forall s :: s in t.outcome.students <==> s in students && s.userId == userId
    // Every stored document of the user, as often as it is stored.
    ensures forall s :: multiset(t.outcome.students)[s] == if s.userId == userId then multiset(students)[s] else 0
    ensures IsSubsequence(t.outcome.students, students)
  {
    var own := OwnStudents(students, userId);
    assert forall s :: s in own <==> multiset(own)[s] > 0;
    FilterIsSubsequence(students, (s: Student) => s.userId == userId);
    Transition(students, Students(own))
  }

  function RollsOf(students: seq<Student>): (r: seq<Roll>)
    ensures |r| == |students|
    ensures forall i :: 0 <= i < |r| ==> r[i] == students[i].roll
  {
    seq(|students|, i requires 0 <= i < |students| => students[i].roll)
  }

  /** `find({ userId }).toArray().map(student => student.roll)`: the user's roster rolls. */
  function RosterRolls(students: seq<Student>, userId: UserId): (r: seq<Roll>)
    ensures |r| <= |students|
    ensures forall roll :: roll in r <==> Enrolled(students, userId, roll)
    // One roll per student document of the user, in storage order.
    ensures |r| == |OwnStudents(students, userId)|
    ensures forall i :: 0 <= i < |r| ==> r[i] == OwnStudents(students, userId)[i].roll
  {
    RollsOfOwnStudents(students, userId);
    RollsOf(OwnStudents(students, userId))
  }

  /** The rolls of the user's students are exactly the enrolled rolls. */
  lemma RollsOfOwnStudents(students: seq<Student>, userId: UserId)
    ensures forall roll :: roll in RollsOf(OwnStudents(students, userId)) <==> Enrolled(students, userId, roll)
  {
    var own := OwnStudents(students, userId);
    var r := RollsOf(own);
    forall roll
      ensures roll in r <==> Enrolled(students, userId, roll)
    {
      if roll in r {
        var k :| 0 <= k < |r| && r[k] == roll;
        assert own[k] in own;
        assert multiset(own)[own[k]] > 0;
        assert own[k] in students;
      }
      if Enrolled(students, userId, roll) {
        var i :| 0 <= i < |students| && IsEntry(students[i], userId, roll);
        assert multiset(students)[students[i]] > 0;
        assert students[i] in own;
        var k :| 0 <= k < |own| && own[k] == students[i];
        assert r[k] == roll;
      }
    }
  }

  /**
   `/add-student`: refuses a roll the user already has, and otherwise inserts
   exactly the new student at the end of the collection.
   */
  function AddStudent(students: seq<Student>, userId: UserId, roll: Roll, name: string): (t: Transition<seq<Student>>)
    ensures t.outcome == StudentAdded || t.outcome == DuplicateRoll
    ensures t.outcome == DuplicateRoll <==> Enrolled(students, userId, roll)
    ensures t.outcome == DuplicateRoll ==> t.next == students
    ensures t.outcome == StudentAdded ==> t.next == students + [Student(userId, roll, name)]
    ensures Enrolled(t.next, userId, roll)
  {
    if Enrolled(students, userId, roll) then Transition(students, DuplicateRoll)
    else
      var next := students + [Student(userId, roll, name)];
      assert IsEntry(next[|students|], userId, roll);
      Transition(next, StudentAdded)
  }

  lemma AddStudentPreservesUnique(students: seq<Student>, userId: UserId, roll: Roll, name: string)
    requires RosterUnique(students)
    ensures RosterUnique(AddStudent(students, userId, roll, name).next)
  {
    var t := AddStudent(students, userId, roll, name);
    if t.outcome == StudentAdded {
      AppendKeysUnique(students, Student(userId, roll, name), StudentKey);
    }
  }

  /** Adding the same (userId, roll) twice in a row: the second call is refused. */
  lemma AddStudentTwice(students: seq<Student>, userId: UserId, roll: Roll, name: string, name': string)
    ensures var first := AddStudent(students, userId, roll, name);
      AddStudent(first.next, userId, roll, name') == Transition(first.next, DuplicateRoll)
  {
  }

  /**
   The rolls of `rolls` that no student of the user carries, in input order with
   duplicates kept, are exactly what excluding the roster rolls leaves.
   */
  lemma NotEnrolledRolls(students: seq<Student>, userId: UserId, rolls: seq<Roll>)
    ensures forall roll :: roll in Exclude(rolls, RosterRolls(students, userId))
                       <==> roll in rolls && !Enrolled(students, userId, roll)
    ensures forall roll :: multiset(Exclude(rolls, RosterRolls(students, userId)))[roll]
                        == (if Enrolled(students, userId, roll) then 0 else multiset(rolls)[roll])
    ensures IsSubsequence(Exclude(rolls, RosterRolls(students, userId)), rolls)
  {
    var roster := RosterRolls(students, userId);
    var r := Exclude(rolls, roster);
    RetainExcludeCounts(rolls, roster);
    forall roll
      ensures roll in r <==> roll in rolls && !Enrolled(students, userId, roll)
      ensures multiset(r)[roll] == (if Enrolled(students, userId, roll) then 0 else multiset(rolls)[roll])
    {
      assert roll in roster <==> Enrolled(students, userId, roll);
    }
    RetainExcludeOrder(rolls, roster);
  }

  /** One more submitted roll extends the mismatched rolls by that roll exactly when it is not enrolled. */
  lemma CheckRollsStep(students: seq<Student>, userId: UserId, rolls: seq<Roll>, i: nat)
    requires i < |rolls|
    ensures Exclude(rolls[..i + 1], RosterRolls(students, userId))
         == Exclude(rolls[..i], RosterRolls(students, userId))
            + (if Enrolled(students, userId, rolls[i]) then [] else [rolls[i]])
  {
    var roster := RosterRolls(students, userId);
    ExcludePrefix(rolls, roster, i);
    assert rolls[i] in roster <==> Enrolled(students, userId, rolls[i]);
  }

  /**
   `/check-rolls`: looks every submitted roll up on its own, in input order, and
   collects those no student of the user carries.
   */
  method CheckRolls(students: seq<Student>, userId: UserId, rolls: seq<Roll>) returns (mismatched: seq<Roll>)
    ensures forall roll :: roll in mismatched <==> roll in rolls && !Enrolled(students, userId, roll)
    ensures IsSubsequence(mismatched, rolls)
    // So, by NotEnrolledRolls, each unregistered roll appears as often as submitted.
    ensures mismatched == Exclude(rolls, RosterRolls(students, userId))
  {
    ghost var roster := RosterRolls(students, userId);
    mismatched := [];
    for i := 0 to |rolls|
      invariant mismatched == Exclude(rolls[..i], roster)
    {
      CheckRollsStep(students, userId, rolls, i);
      if !Enrolled(students, userId, rolls[i]) {
        mismatched := mismatched + [rolls[i]];
      }
    }
    assert rolls[..|rolls|] == rolls;
    NotEnrolledRolls(students, userId, rolls);
  }

  /**
   `/delete-student`: `deleteOne({ userId, roll })`. Removes the first matching
   student, or reports not-found and leaves the collection alone.
   */
  function DeleteStudent(students: seq<Student>, userId: UserId, roll: Roll): (t: Transition<seq<Student>>)
    ensures t.outcome == StudentDeleted || t.outcome == StudentNotFound
    ensures t.outcome == StudentNotFound <==> !Enrolled(students, userId, roll)
    ensures t.outcome == StudentNotFound ==> t.next == students
    ensures t.outcome == StudentDeleted ==>
      exists k :: 0 <= k < |students| && IsEntry(students[k], userId, roll)
        && t.next == students[..k] + students[k + 1..]
    // Students other than the one named are untouched.
    ensures forall s :: !IsEntry(s, userId, roll) ==> multiset(t.next)[s] == multiset(students)[s]
  {
    var d := DeleteOne(students, (s: Student) => IsEntry(s, userId, roll));
    if d.deletedCount == 0 then Transition(students, StudentNotFound)
    else Transition(d.rest, StudentDeleted)
  }

  /** With rolls unique per user, removing the student at `k` takes its roll off the roster. */
  lemma RemoveAtUnenrolls(students: seq<Student>, k: nat)
    requires k < |students| && RosterUnique(students)
    ensures !Enrolled(students[..k] + students[k + 1..], students[k].userId, students[k].roll)
  {
    var n := students[..k] + students[k + 1..];
    RemoveAtKeysUnique(students, k, StudentKey);
    forall i | 0 <= i < |n|
      ensures !IsEntry(n[i], students[k].userId, students[k].roll)
    {
      assert n[i] in n;
    }
  }

  lemma DeleteStudentPreservesUnique(students: seq<Student>, userId: UserId, roll: Roll)
    requires RosterUnique(students)
    ensures RosterUnique(DeleteStudent(students, userId, roll).next)
    ensures IsSubsequence(DeleteStudent(students, userId, roll).next, students)
  {
    var t := DeleteStudent(students, userId, roll);
    if t.outcome == StudentNotFound {
      SubsequenceRefl(students);
    } else {
      var k :| 0 <= k < |students| && IsEntry(students[k], userId, roll)
        && t.next == students[..k] + students[k + 1..];
      RemoveAtIsSubsequence(students, k);
      RemoveAtKeysUnique(students, k, StudentKey);
    }
  }

  /**
   With rolls unique per user, a successful delete removes the roll from the
   roster, so repeating the delete reports not-found and changes nothing.
   */
  lemma DeleteStudentTwice(students: seq<Student>, userId: UserId, roll: Roll)
    requires RosterUnique(students)
    ensures var first := DeleteStudent(students, userId, roll);
      !Enrolled(first.next, userId, roll)
      && DeleteStudent(first.next, userId, roll) == Transition(first.next, StudentNotFound)
  {
    var first := DeleteStudent(students, userId, roll);
    if first.outcome == StudentDeleted {
      var k :| 0 <= k < |students| && IsEntry(students[k], userId, roll)
        && first.next == students[..k] + students[k + 1..];
      RemoveAtUnenrolls(students, k);
    }
  }
}

=== FILE: scenarios.dfy ===
/** Worked requests against small stores. */
module Scenarios {
  import opened Seqs
  import opened Model
  import opened Roster
  import opened Reconciler
  import Server
  import PostingDate

  const Teacher: UserId := "teacher"

  function Enrol(rolls: seq<Roll>): (students: seq<Student>)
    ensures |students| == |rolls|
    ensures forall i :: 0 <= i < |rolls| ==> students[i] == Student(Teacher, rolls[i], "")
  {
    seq(|rolls|, i requires 0 <= i < |rolls| => Student(Teacher, rolls[i], ""))
  }

  /** A roster made by `Enrol` has exactly the enrolled rolls, in order. */
  lemma EnrolRoster(rolls: seq<Roll>)
    ensures RosterRolls(Enrol(rolls), Teacher) == rolls
  {
    var students := Enrol(rolls);
    FilterAll(students, (s: Student) => s.userId == Teacher);
    assert OwnStudents(students, Teacher) == students;
  }

  lemma AllSubmittedReconcile()
    ensures Reconcile([Num(1), Num(2), Num(3)], [Num(1), Num(2)])
         == Reconciliation([Num(1), Num(2)], [], [Num(3)])
  {
    var roster, rolls := [Num(1), Num(2), Num(3)], [Num(1), Num(2)];
    assert Retain(rolls, roster) == rolls by {
      FilterAll(rolls, x => x in roster);
    }
    assert Exclude(rolls, roster) == [];
    assert Exclude(roster, rolls) == [Num(3)] by {
      ExcludeThree(Num(1), Num(2), Num(3), rolls);
    }
    var c := Reconcile(roster, rolls);
    assert c.absent == [] + [Num(3)];
  }

  /** Roster [1, 2, 3], rolls [1, 2]: all present, 3 absent, plain success. */
  lemma AllSubmittedPresent(day: PostingDate.CalendarDay)
    ensures var t := AddAttendance([], Enrol([Num(1), Num(2), Num(3)]), Teacher, [Num(1), Num(2)], 7, day);
      t.outcome == AttendanceAdded([])
      && t.next == [AttendanceRecord(7, Teacher, PostingDate.Format(day), [Num(1), Num(2)], [Num(3)])]
  {
    var roster := [Num(1), Num(2), Num(3)];
    EnrolRoster(roster);
    AllSubmittedReconcile();
    FirstPosting(Enrol(roster), Teacher, [Num(1), Num(2)], 7, day, roster,
                 Reconciliation([Num(1), Num(2)], [], [Num(3)]));
  }

  lemma OneExcludedReconcile()
    ensures Reconcile([Num(1), Num(2), Num(3)], [Num(1), Num(9)])
         == Reconciliation([Num(1)], [Num(9)], [Num(2), Num(3)])
  {
    var roster, rolls := [Num(1), Num(2), Num(3)], [Num(1), Num(9)];
    assert Retain(rolls, roster) == [Num(1)] by {
      FilterCons(Num(1), [Num(9)], x => x in roster);
      FilterCons(Num(9), [], x => x in roster);
    }
    assert Exclude(rolls, roster) == [Num(9)] by {
      FilterCons(Num(1), [Num(9)], x => x !in roster);
      FilterCons(Num(9), [], x => x !in roster);
    }
    assert Exclude([Num(1)], roster) == [];
    assert Exclude(roster, [Num(1)]) == [Num(2), Num(3)] by {
      ExcludeThree(Num(1), Num(2), Num(3), [Num(1)]);
    }
    var c := Reconcile(roster, rolls);
    assert c.absent == [] + [Num(2), Num(3)];
  }

  /** Roster [1, 2, 3], rolls [1, 9]: 1 present, 2 and 3 absent, 9 reported as excluded. */
  lemma OneExcluded(day: PostingDate.CalendarDay)
    ensures var t := AddAttendance([], Enrol([Num(1), Num(2), Num(3)]), Teacher, [Num(1), Num(9)], 7, day);
      t.outcome == AttendanceAdded([Num(9)])
      && t.next == [AttendanceRecord(7, Teacher, PostingDate.Format(day), [Num(1)], [Num(2), Num(3)])]
  {
    var roster := [Num(1), Num(2), Num(3)];
    EnrolRoster(roster);
    OneExcludedReconcile();
    FirstPosting(Enrol(roster), Teacher, [Num(1), Num(9)], 7, day, roster,
                 Reconciliation([Num(1)], [Num(9)], [Num(2), Num(3)]));
  }

  /**
   A first posting against a roster whose reconciliation is known, with some
   present roll, stores exactly that reconciliation.
   */
  lemma FirstPosting(students: seq<Student>, userId: UserId, rolls: seq<Roll>, freshId: ObjectId,
                     today: PostingDate.CalendarDay, roster: seq<Roll>, c: Reconciliation)
    requires RosterRolls(students, userId) == roster
    requires Reconcile(roster, rolls) == c && |c.present| > 0
    ensures AddAttendance([], students, userId, rolls, freshId, today)
         == Transition([AttendanceRecord(freshId, userId, PostingDate.Format(today), c.present, c.absent)],
                       AttendanceAdded(c.unmatched))
  {
    var r := AttendanceRecord(freshId, userId, PostingDate.Format(today), c.present, c.absent);
    assert RecordIds([]) == {};
    assert [] + [r] == [r];
  }

  /** Roster [1, 2], rolls [9, 8]: nothing is stored and the rolls are reported missing. */
  lemma NoneOnRoster(records: seq<AttendanceRecord>, day: PostingDate.CalendarDay)
    ensures AddAttendance(records, Enrol([Num(1), Num(2)]), Teacher, [Num(9), Num(8)], 7, day)
         == Transition(records, RollsDontExist)
  {
    var students := Enrol([Num(1), Num(2)]);
    forall roll | roll in [Num(9), Num(8)]
      ensures !Enrolled(students, Teacher, roll)
    {
    }
  }

  /** `/check-rolls` with rolls [A, B, C] where only A is registered answers [B, C]. */
  lemma CheckRollsExample(s: Store)
    requires s.students == Enrol([Text("A")])
    ensures Server.Handle(s, Server.CheckRollsRequest([Text("A"), Text("B"), Text("C")], Teacher), (p, h) => p == h)
         == Transition(s, MismatchedRolls([Text("B"), Text("C")]))
  {
    var rolls := [Text("A"), Text("B"), Text("C")];
    var t := Server.Handle(s, Server.CheckRollsRequest(rolls, Teacher), (p, h) => p == h);
    assert t == Transition(s, MismatchedRolls(Exclude(rolls, RosterRolls(s.students, Teacher))));
    assert RosterRolls(s.students, Teacher) == [Text("A")] by {
      EnrolRoster([Text("A")]);
    }
    assert Exclude(rolls, [Text("A")]) == [Text("B"), Text("C")] by {
      ExcludeThree(Text("A"), Text("B"), Text("C"), [Text("A")]);
    }
  }

  /** Filtering three elements one at a time. */
  lemma ThreeFiltered<T(!new)>(a: T, b: T, c: T, p: T -> bool)
    ensures Filter([a, b, c], p)
         == (if p(a) then [a] else []) + (if p(b) then [b] else []) + (if p(c) then [c] else [])
  {
    assert [a, b, c][1..] == [b, c];
    assert [b, c][1..] == [c];
    assert [c][1..] == [];
    var fa, fb, fc := (if p(a) then [a] else []), (if p(b) then [b] else []), (if p(c) then [c] else []);
    assert Filter([c], p) == fc;
    assert Filter([b, c], p) == fb + fc;
    assert Filter([a, b, c], p) == fa + (fb + fc);
  }

  lemma ExcludeThree(a: Roll, b: Roll, c: Roll, ys: seq<Roll>)
    ensures Exclude([a, b, c], ys)
         == (if a in ys then [] else [a]) + (if b in ys then [] else [b]) + (if c in ys then [] else [c])
  {
    ThreeFiltered(a, b, c, x => x !in ys);
  }
}

=== FILE: seqs.dfy ===
/**
 Sequence operations the server relies on: JavaScript's `Array.prototype.filter`
 (with an `includes` test against another array), and the document store's
 `find` (all matches, in storage order) and `deleteOne` (remove the first match).
 */
module Seqs {

  datatype Option<+T> = None | Some(value: T)

  /** `a` can be obtained from `b` by deleting elements: order is kept. */
  ghost predicate IsSubsequence<T>(a: seq<T>, b: seq<T>)
    decreases |b|
  {
    if |a| == 0 then true
    else if |b| == 0 then false
    else (a[0] == b[0] && IsSubsequence(a[1..], b[1..])) || IsSubsequence(a, b[1..])
  }

  /** `xs.filter(p)`: the elements satisfying `p`, in order, duplicates kept. */
  function Filter<T(!new)>(xs: seq<T>, p: T -> bool): (r: seq<T>)
    ensures |r| <= |xs|
    ensures forall i :: 0 <= i < |r| ==> p(r[i])
  {
    if |xs| == 0 then []
    else if p(xs[0]) then [xs[0]] + Filter(xs[1..], p) else Filter(xs[1..], p)
  }

  /** Duplicates are kept: each passing value occurs as often as in `xs`, the others not at all. */
  lemma {:induction false} FilterCounts<T(!new)>(xs: seq<T>, p: T -> bool)
    ensures forall x :: multiset(Filter(xs, p))[x] == if p(x) then multiset(xs)[x] else 0
  {
    if |xs| > 0 {
      FilterCounts(xs[1..], p);
      assert xs == [xs[0]] + xs[1..];
    }
  }

  lemma {:induction false} FilterIsSubsequence<T(!new)>(xs: seq<T>, p: T -> bool)
    ensures IsSubsequence(Filter(xs, p), xs)
  {
    if |xs| > 0 {
      FilterIsSubsequence(xs[1..], p);
      var r := Filter(xs, p);
      if p(xs[0]) {
        assert r[0] == xs[0] && r[1..] == Filter(xs[1..], p);
      }
    }
  }

  /** Filtering looks at the first element, then at the rest. */
  lemma FilterCons<T(!new)>(x: T, xs: seq<T>, p: T -> bool)
    ensures Filter([x] + xs, p) == (if p(x) then [x] else []) + Filter(xs, p)
  {
    assert ([x] + xs)[1..] == xs;
  }

  /** A filter every element passes keeps the whole sequence. */
  lemma {:induction false} FilterAll<T(!new)>(xs: seq<T>, p: T -> bool)
    requires forall i :: 0 <= i < |xs| ==> p(xs[i])
    ensures Filter(xs, p) == xs
  {
    if |xs| > 0 {
      FilterAll(xs[1..], p);
      assert [xs[0]] + xs[1..] == xs;
    }
  }

  /** Filtering distributes over appending one element at the end. */
  lemma {:induction false} FilterSnoc<T(!new)>(xs: seq<T>, x: T, p: T -> bool)
    ensures Filter(xs + [x], p) == Filter(xs, p) + (if p(x) then [x] else [])
  {
    if |xs| == 0 {
      assert xs + [x] == [x];
    } else {
      assert (xs + [x])[0] == xs[0];
      assert (xs + [x])[1..] == xs[1..] + [x];
      FilterSnoc(xs[1..], x, p);
    }
  }

  /** Splitting by `p` and by its negation loses nothing and invents nothing. */
  lemma FilterPartition<T(!new)>(xs: seq<T>, p: T -> bool, q: T -> bool)
    requires forall x :: q(x) == !p(x)
    ensures multiset(Filter(xs, p)) + multiset(Filter(xs, q)) == multiset(xs)
    ensures |Filter(xs, p)| + |Filter(xs, q)| == |xs|
  {
    FilterCounts(xs, p);
    FilterCounts(xs, q);
    var kept, dropped := multiset(Filter(xs, p)), multiset(Filter(xs, q));
    forall x
      ensures (kept + dropped)[x] == multiset(xs)[x]
    {
      assert q(x) == !p(x);
    }
    assert kept + dropped == multiset(xs);
  }

  /** `xs.filter(x => ys.includes(x))`. */
  function Retain<T(==,!new)>(xs: seq<T>, ys: seq<T>): (r: seq<T>)
    ensures |r| <= |xs|
    ensures forall x :: x in r <==> x in xs && x in ys
  {
    var r := Filter(xs, x => x in ys);
    FilterCounts(xs, x => x in ys);
    assert forall x :: x in r <==> multiset(r)[x] > 0;
    r
  }

  /** `xs.filter(x => !ys.includes(x))`. */
  function Exclude<T(==,!new)>(xs: seq<T>, ys: seq<T>): (r: seq<T>)
    ensures |r| <= |xs|
    ensures forall x :: x in r <==> x in xs && x !in ys
  {
    var r := Filter(xs, x => x !in ys);
    FilterCounts(xs, x => x !in ys);
    assert forall x :: x in r <==> multiset(r)[x] > 0;
    r
  }

  /** Both filters keep duplicates: a kept value occurs as often as in `xs`. */
  lemma RetainExcludeCounts<T(!new)>(xs: seq<T>, ys: seq<T>)
    ensures forall x :: multiset(Retain(xs, ys))[x] == if x in ys then multiset(xs)[x] else 0
    ensures forall x :: multiset(Exclude(xs, ys))[x] == if x in ys then 0 else multiset(xs)[x]
  {
    FilterCounts(xs, x => x in ys);
    FilterCounts(xs, x => x !in ys);
  }

  lemma RetainExcludeOrder<T(!new)>(xs: seq<T>, ys: seq<T>)
    ensures IsSubsequence(Retain(xs, ys), xs)
    ensures IsSubsequence(Exclude(xs, ys), xs)
  {
    FilterIsSubsequence(xs, x => x in ys);
    FilterIsSubsequence(xs, x => x !in ys);
  }

  /** Every element of `xs` lands in exactly one of the two filters. */
  lemma RetainExcludePartition<T(!new)>(xs: seq<T>, ys: seq<T>)
    ensures multiset(Retain(xs, ys)) + multiset(Exclude(xs, ys)) == multiset(xs)
    ensures |Retain(xs, ys)| + |Exclude(xs, ys)| == |xs|
    ensures forall x :: !(x in Retain(xs, ys) && x in Exclude(xs, ys))
  {
    FilterPartition(xs, x => x in ys, x => x !in ys);
    RetainExcludeCounts(xs, ys);
  }

  lemma ExcludeSnoc<T(!new)>(xs: seq<T>, x: T, ys: seq<T>)
    ensures Exclude(xs + [x], ys) == Exclude(xs, ys) + (if x in ys then [] else [x])
  {
    FilterSnoc(xs, x, y => y !in ys);
  }

  /** Excluding over a prefix one element longer: the element is appended exactly when it is not in `ys`. */
  lemma ExcludePrefix<T(!new)>(xs: seq<T>, ys: seq<T>, i: nat)
    requires i < |xs|
    ensures Exclude(xs[..i + 1], ys) == Exclude(xs[..i], ys) + (if xs[i] in ys then [] else [xs[i]])
  {
    assert xs[..i + 1] == xs[..i] + [xs[i]];
    ExcludeSnoc(xs[..i], xs[i], ys);
  }

  /** Index of the first element satisfying `p` (the document `findOne` / `deleteOne` picks). */
  function FirstMatch<T>(xs: seq<T>, p: T -> bool): (r: Option<nat>)
    ensures r.None? <==> forall i :: 0 <= i < |xs| ==> !p(xs[i])
    ensures r.Some? ==> r.value < |xs| && p(xs[r.value])
    ensures r.Some? ==> forall j :: 0 <= j < r.value ==> !p(xs[j])
  {
    if |xs| == 0 then None
    else if p(xs[0]) then Some(0)
    else match FirstMatch(xs[1..], p)
      case None => None
      case Some(k) => Some(k + 1)
  }

  /** What `deleteOne` leaves behind, and its `deletedCount`. */
  datatype Deletion<T> = Deletion(rest: seq<T>, deletedCount: nat)

  /** `deleteOne(filter)`: remove the first element matching `p`, if any. */
  function DeleteOne<T(!new)>(xs: seq<T>, p: T -> bool): (d: Deletion<T>)
    ensures d.deletedCount <= 1
    ensures d.deletedCount == 0 <==> forall i :: 0 <= i < |xs| ==> !p(xs[i])
    ensures d.deletedCount == 0 ==> d.rest == xs
    ensures d.deletedCount == 1 ==>
      exists k :: 0 <= k < |xs| && p(xs[k]) && d.rest == xs[..k] + xs[k + 1..]
        && forall j :: 0 <= j < k ==> !p(xs[j])
    ensures |d.rest| + d.deletedCount == |xs|
    ensures forall x :: !p(x) ==> multiset(d.rest)[x] == multiset(xs)[x]
  {
    match FirstMatch(xs, p)
    case None => Deletion(xs, 0)
    case Some(k) =>
      assert xs == xs[..k] + [xs[k]] + xs[k + 1..];
      Deletion(xs[..k] + xs[k + 1..], 1)
  }

  /** Removing one element keeps the others in order. */
  lemma {:induction false} RemoveAtIsSubsequence<T>(xs: seq<T>, k: nat)
    requires k < |xs|
    ensures IsSubsequence(xs[..k] + xs[k + 1..], xs)
  {
    var r := xs[..k] + xs[k + 1..];
    if k == 0 {
      assert r == xs[1..];
      SubsequenceRefl(xs[1..]);
    } else {
      RemoveAtIsSubsequence(xs[1..], k - 1);
      assert r[0] == xs[0];
      assert r[1..] == xs[1..][..k - 1] + xs[1..][k..];
    }
  }

  lemma {:induction false} SubsequenceRefl<T>(xs: seq<T>)
    ensures IsSubsequence(xs, xs)
  {
    if |xs| > 0 {
      SubsequenceRefl(xs[1..]);
    }
  }

  /** No two elements share a key (a unique index over the collection). */
  ghost predicate KeysUnique<T, K>(xs: seq<T>, key: T -> K)
  {
    forall i, j :: 0 <= i < j < |xs| ==> key(xs[i]) != key(xs[j])
  }

  /**
   Removing the element at `k` keeps the keys unique, and its key no longer
   occurs among the rest.
   */
  lemma RemoveAtKeysUnique<T, K>(xs: seq<T>, k: nat, key: T -> K)
    requires k < |xs| && KeysUnique(xs, key)
    ensures KeysUnique(xs[..k] + xs[k + 1..], key)
    ensures forall y :: y in xs[..k] + xs[k + 1..] ==> key(y) != key(xs[k])
  {
    var n := xs[..k] + xs[k + 1..];
    forall i | 0 <= i < |n|
      ensures n[i] == xs[if i < k then i else i + 1]
    {
    }
    forall i | 0 <= i < |n|
      ensures key(n[i]) != key(xs[k])
    {
      var i' := if i < k then i else i + 1;
      assert n[i] == xs[i'];
      if i' < k {
        assert key(xs[i']) != key(xs[k]);
      } else {
        assert key(xs[k]) != key(xs[i']);
      }
    }
  }

  /** Appending an element with a fresh key keeps the keys unique. */
  lemma AppendKeysUnique<T, K>(xs: seq<T>, x: T, key: T -> K)
    requires KeysUnique(xs, key)
    requires forall i :: 0 <= i < |xs| ==> key(xs[i]) != key(x)
    ensures KeysUnique(xs + [x], key)
  {
    var n := xs + [x];
    forall i, j | 0 <= i < j < |n|
      ensures key(n[i]) != key(n[j])
    {
      assert n[i] == xs[i];
      if j < |xs| {
        assert n[j] == xs[j];
      }
    }
  }
}

=== FILE: server.dfy ===
/**
 The request handlers run one after another over one store. Each request is a
 transition from the store before it to the store after it plus a response;
 the invariants of the three collections hold after any sequence of requests.
 */
module Server {
  import opened Seqs
  import opened Model
  import opened Credentials
  import opened Roster
  import opened AttendanceStore
  import opened Reconciler
  import PostingDate

  /**
   One request, with what the environment supplies for it: a generated id, the
   hash computed for a new password, the clock reading.
   */
  datatype Request =
    | SignInRequest(email: string, password: string, newUserId: ObjectId, hashed: string)
    | AddStudentRequest(name: string, roll: Roll, userId: UserId)
    | CheckRollsRequest(rolls: seq<Roll>, userId: UserId)
    | GetStudentsRequest(userId: UserId)
    | DeleteStudentRequest(userId: UserId, roll: Roll)
    | AddAttendanceRequest(userId: UserId, rolls: seq<Roll>, newRecordId: ObjectId, today: PostingDate.CalendarDay)
    | GetAttendanceRequest(userId: UserId)
    | DeleteAttendanceRequest(userId: UserId, attendanceId: ObjectId)

  /** Emails and user ids unique, rolls unique per user, record ids unique and records consistent. */
  ghost predicate StoreValid(s: Store)
  {
    UsersValid(s.users) && RosterUnique(s.students) && RecordsValid(s.attendance)
  }

  /** Responses after which the handler has written nothing. */
  predicate IsRefusal(o: Outcome)
  {
    o.PasswordMismatch? || o.DuplicateRoll? || o.StudentNotFound? || o.AttendanceNotFound?
    || o.RollsDontExist? || o.InternalError?
  }

  /** `before` is a prefix of `after`: entries are only ever appended. */
  predicate IsPrefix<T(==)>(before: seq<T>, after: seq<T>)
  {
    |before| <= |after| && after[..|before|] == before
  }

  /** `/signin` against the store; only the users collection can change. */
  function SignInStep(s: Store, email: string, password: string, newUserId: ObjectId, hashed: string,
                      matches: (string, string) -> bool): (t: Transition<Store>)
    ensures t.next == s.(users := t.next.users)
    ensures IsRefusal(t.outcome) ==> t.next == s
    ensures IsPrefix(s.users, t.next.users)
  {
    var u := SignIn(s.users, email, password, newUserId, hashed, matches);
    Transition(s.(users := u.next), u.outcome)
  }

  /** `/add-student` and `/delete-student`; only the students collection can change. */
  function StudentStep(s: Store, req: Request): (t: Transition<Store>)
    requires req.AddStudentRequest? || req.DeleteStudentRequest?
    ensures t.next == s.(students := t.next.students)
    ensures IsRefusal(t.outcome) ==> t.next == s
  {
    var r := if req.AddStudentRequest? then AddStudent(s.students, req.userId, req.roll, req.name)
             else DeleteStudent(s.students, req.userId, req.roll);
    Transition(s.(students := r.next), r.outcome)
  }

  /** `/addAttendance` and `/delete-attendance`; only the attendance collection can change. */
  function AttendanceStep(s: Store, req: Request): (t: Transition<Store>)
    requires req.AddAttendanceRequest? || req.DeleteAttendanceRequest?
    ensures t.next == s.(attendance := t.next.attendance)
    ensures IsRefusal(t.outcome) ==> t.next == s
  {
    var a := if req.AddAttendanceRequest? then AddAttendance(s.attendance, s.students, req.userId, req.rolls, req.newRecordId, req.today)
             else DeleteAttendance(s.attendance, req.userId, req.attendanceId);
    Transition(s.(attendance := a.next), a.outcome)
  }

  /** Dispatch one request to its handler; `matches` is the password-hash comparison. */
  function Handle(s: Store, req: Request, matches: (string, string) -> bool): (t: Transition<Store>)
    // Each handler writes only its own collection.
    ensures !req.SignInRequest? ==> t.next.users == s.users
    ensures !(req.AddStudentRequest? || req.DeleteStudentRequest?) ==> t.next.students == s.students
    ensures !(req.AddAttendanceRequest? || req.DeleteAttendanceRequest?) ==> t.next.attendance == s.attendance
    // Reads never write, and neither does a refused or failed request.
    ensures (req.CheckRollsRequest? || req.GetStudentsRequest? || req.GetAttendanceRequest?) ==> t.next == s
    ensures IsRefusal(t.outcome) ==> t.next == s
    // Users are never removed or changed.
    ensures IsPrefix(s.users, t.next.users)
  {
    match req
    case SignInRequest(email, password, newUserId, hashed) =>
      SignInStep(s, email, password, newUserId, hashed, matches)
    case CheckRollsRequest(rolls, userId) =>
      // The functional form of `Roster.CheckRolls`, whose result it is.
      Transition(s, MismatchedRolls(Exclude(rolls, RosterRolls(s.students, userId))))
    case GetStudentsRequest(userId) =>
      Transition(s, GetStudents(s.students, userId).outcome)
    case GetAttendanceRequest(userId) =>
      Transition(s, GetAttendance(s.attendance, userId).outcome)
    case AddStudentRequest(_, _, _) => StudentStep(s, req)
    case DeleteStudentRequest(_, _) => StudentStep(s, req)
    case AddAttendanceRequest(_, _, _, _) => AttendanceStep(s, req)
    case DeleteAttendanceRequest(_, _) => AttendanceStep(s, req)
  }

  lemma HandlePreservesValid(s: Store, req: Request, matches: (string, string) -> bool)
    requires StoreValid(s)
    ensures StoreValid(Handle(s, req, matches).next)
  {
    match req
    case SignInRequest(email, password, newUserId, hashed) =>
      SignInPreservesValidity(s.users, email, password, newUserId, hashed, matches);
    case AddStudentRequest(name, roll, userId) =>
      AddStudentPreservesUnique(s.students, userId, roll, name);
    case DeleteStudentRequest(userId, roll) =>
      DeleteStudentPreservesUnique(s.students, userId, roll);
    case AddAttendanceRequest(userId, rolls, newRecordId, today) =>
      AddAttendancePreservesValid(s.attendance, s.students, userId, rolls, newRecordId, today);
    case DeleteAttendanceRequest(userId, attendanceId) =>
      DeleteAttendancePreservesValid(s.attendance, userId, attendanceId);
    case _ =>
  }

  /** The store after handling `reqs` in order, and the responses given. */
  function Run(s: Store, reqs: seq<Request>, matches: (string, string) -> bool): (r: (Store, seq<Outcome>))
    ensures |r.1| == |reqs|
    // Users only accumulate, whatever else happens.
    ensures IsPrefix(s.users, r.0.users)
    decreases |reqs|
  {
    if |reqs| == 0 then (s, [])
    else
      var t := Handle(s, reqs[0], matches);
      var rest := Run(t.next, reqs[1..], matches);
      assert rest.0.users[..|s.users|] == rest.0.users[..|t.next.users|][..|s.users|];
      (rest.0, [t.outcome] + rest.1)
  }

  /** Requests run one after another never break the store's invariants. */
  lemma {:induction false} RunPreservesValid(s: Store, reqs: seq<Request>, matches: (string, string) -> bool)
    requires StoreValid(s)
    ensures StoreValid(Run(s, reqs, matches).0)
    decreases |reqs|
  {
    if |reqs| > 0 {
      HandlePreservesValid(s, reqs[0], matches);
      RunPreservesValid(Handle(s, reqs[0], matches).next, reqs[1..], matches);
    }
  }
}
